=== FILE: README.md ===
# Express Checkout plugin — a Dafny model

This project models the orchestration logic of `ExpressCheckoutPlugin`, the
plugin that maps the payment framework's financial operations onto the
gateway's Express Checkout API:

- `approve` / `approveAndDeposit`. These acquire or reuse a checkout token, check the checkout status, record the payer id, finalise the payment and classify its status.
- `deposit`. It captures. When a capture reports the authorization expired, it reauthorizes once. Only if that reauthorization reports `Completed` does it capture again, under the new authorization id; otherwise it keeps the first capture's transaction id. Then it queries the transaction details and classifies the payment status.
- `credit`. It refunds against the stored authorization id: a partial refund when the requested amount differs from the approve transaction's processed amount, a full refund otherwise.
- `reverseApproval`. It voids the authorization.
- `reverseDeposit`. It refunds the first deposit.
- `processes` and `isIndependentCreditSupported`.

Every operation is a pure function. It takes:

- the transaction,
- the parts of its payment that the plugin reads (`Transactions.Payment`),
- the configured default URLs (`Transactions.Config`),
- a scripted gateway (`Gateway.Script`). This is a function that answers the n-th call issued with its n-th reply. Each reply is a success flag plus a field map.

It returns a `Transactions.Run`, which holds:

- the outcome: `Success`, `Pending(reason)`, `ActionRequired(url)`, `Failed(responseCode, reasonCode)`, or `MissingUrl` for the missing-URL runtime error;
- the updated transaction, including its extended data;
- the log of gateway calls issued.

The log makes call counts and call arguments part of the contracts. Examples: no gateway call happens before a missing-URL error, and a deposit makes at most one reauthorization and at most two captures.

Files:

- `gateway.dfy`: replies, field lookup, the calls and their log.
- `transactions.dfy`: the transaction, extended data, payment context, outcome, and the `Step` type that threads state through an operation.
- `express_checkout.dfy`: the plugin's operations.
- `properties.dfy`: lemmas that relate several runs, or a run to the gateway replies.

Two invariants appear in the contract of every operation and of checkout completion:

- `Recorded`: a hard failure carries exactly the response and reason codes written on the transaction.
- `Untouched`: the requested amount and the extended-data keys seeded by the caller are never changed.

`CheckoutProperties` also states three invariants over all six operations. A hard failure changes only the two codes. The one exception is checkout completion: once it has issued the payment call, the details reply's payer id is also kept. The processed amount changes only on success, and the reference number only on success or a pending payment. A redirect comes only from checkout completion and changes at most the stored token.

Three behaviours of the code are easy to miss:

- A second `Expired` capture is not treated as a failure. Its status is never read: its `TRANSACTIONID` is queried, and the details query decides the outcome (`CheckoutProperties.SecondCaptureStatusIgnored`).
- A successful credit sets only the response code. The reason code stays as it was (`ExpressCheckoutPlugin.Credit`).
- A pending `deposit` or `reverseDeposit` carries no pending reason. The source puts `PENDINGREASON` only into the exception's message text. Only checkout completion sets a pending reason.

## Model

| member | source | states |
|---|---|---|
| ExpressCheckoutPlugin.Processes | Plugin/ExpressCheckoutPlugin.php:181-184 | the plugin accepts exactly the identifier `paypal_express_checkout` |
| ExpressCheckoutPlugin.IsIndependentCreditSupported | Plugin/ExpressCheckoutPlugin.php:186-189 | independent credits are never supported |
| ExpressCheckoutPlugin.ThrowUnlessSuccessResponse | Plugin/ExpressCheckoutPlugin.php:356-369 | continues, with nothing changed, iff the reply is successful; otherwise fails with response code = `ACK` and reason code = `L_ERRORCODE0`, recorded on the transaction with nothing else changed |
| ExpressCheckoutPlugin.ResolveUrl | Plugin/ExpressCheckoutPlugin.php:371-393 | a stored override wins even when empty; otherwise the configured default if non-empty; otherwise no URL |
| ExpressCheckoutPlugin.CheckoutOptions | Plugin/ExpressCheckoutPlugin.php:284-286 | token-request options are the caller's `checkout_params` (empty when absent) with exactly the payment-action and currency keys forced; every other key and value is kept |
| ExpressCheckoutPlugin.ObtainExpressCheckoutToken | Plugin/ExpressCheckoutPlugin.php:277-305 | a stored token is returned with no call; without one the step never continues: a missing URL stops before any call; otherwise exactly one SetExpressCheckout is issued with the resolved URLs and options; success stores `TOKEN` and redirects to it; failure stores nothing |
| ExpressCheckoutPlugin.ClassifyCheckoutStatus | Plugin/ExpressCheckoutPlugin.php:200-225 | fails iff `PaymentActionFailed`; proceeds iff `PaymentActionCompleted` or (`PaymentActionNotInitiated` and payer `verified`); every other status waits for the buyer |
| ExpressCheckoutPlugin.ClassifyPaymentStatus | Plugin/ExpressCheckoutPlugin.php:239-261 | paid iff `Completed` or (`Pending` with reason `authorization`); still pending iff `Pending` with another reason; declined otherwise |
| ExpressCheckoutPlugin.CreateCheckoutBillingAgreement | Plugin/ExpressCheckoutPlugin.php:191-305 | without a token: never success or pending; `MissingUrl` (naming the return URL first) iff a URL does not resolve, with no call; otherwise exactly one token request with the resolved URLs and options, and its success redirects to the returned `TOKEN` with only that token stored. With a token: the details query comes first; the payment call happens iff the details succeeded and the checkout may proceed; the payer id is recorded once the payment call is issued. Checkout-failed gives `Failed`/`PaymentActionFailed`; waiting gives a redirect to the token with the transaction unchanged. Success sets the transaction id, amount and success codes. Pending sets only the reference number. A declined payment fails with `Failed`/status. An unsuccessful details or payment reply fails with its `ACK`/`L_ERRORCODE0`. Any failure changes only the two codes, plus the payer id once the payment call was issued |
| ExpressCheckoutPlugin.CompleteCheckout | Plugin/ExpressCheckoutPlugin.php:197-266 | after token acquisition: the details query for the token, then the payment call iff the details succeeded and the checkout may proceed, carrying the requested amount, action, `PAYERID` and currency; the payer id is recorded before the payment call; checkout-failed, waiting, paid, still-pending and declined each give their outcome; an unsuccessful reply fails with its `ACK`/`L_ERRORCODE0`; a failure changes only the two codes and the recorded payer id |
| ExpressCheckoutPlugin.CheckoutCallsCarryAction | Plugin/ExpressCheckoutPlugin.php:195-233 | every token request of checkout completion carries the options built for its payment action and currency, and every payment call carries that action |
| ExpressCheckoutPlugin.Approve | Plugin/ExpressCheckoutPlugin.php:67-70 | every token request and payment call of approve carries the action `Authorization`; failures are recorded and caller-seeded data is untouched |
| ExpressCheckoutPlugin.ApproveAndDeposit | Plugin/ExpressCheckoutPlugin.php:72-75 | every token request and payment call of approveAndDeposit carries the action `Sale`; failures are recorded and caller-seeded data is untouched |
| ExpressCheckoutPlugin.CompletionType | Plugin/ExpressCheckoutPlugin.php:317-322 | the capture completes the authorization iff the approved amount equals the requested amount |
| ExpressCheckoutPlugin.CaptureWithRetry | Plugin/ExpressCheckoutPlugin.php:313-348 | the first capture uses the approve reference; a reauthorization is issued iff the first capture succeeded with `Expired`; a second capture iff that reauthorization succeeded with `Completed`, using its `AUTHORIZATIONID`; the result is the `TRANSACTIONID` of the last capture issued; a stop is a failure with the `ACK`/`L_ERRORCODE0` of the last, unsuccessful reply, changing only the two codes |
| ExpressCheckoutPlugin.Deposit | Plugin/ExpressCheckoutPlugin.php:106-133 | after the capture step, queries the returned id. `Completed` gives success with `TRANSACTIONID`/`AMT` and success codes. `Pending` gives Pending with no reason and the transaction unchanged. Any other status fails with `Failed`/status. An unsuccessful details reply fails with its `ACK`/`L_ERRORCODE0`. Any failure changes only the two codes |
| ExpressCheckoutPlugin.Credit | Plugin/ExpressCheckoutPlugin.php:77-96 | one refund of the stored authorization id; partial parameters (requested amount, currency) iff the requested amount differs from the approve transaction's processed amount; success sets reference, net refund and response code but not the reason code; an unsuccessful reply fails with its `ACK`/`L_ERRORCODE0` and changes only the two codes |
| ExpressCheckoutPlugin.ReverseApproval | Plugin/ExpressCheckoutPlugin.php:141-152 | one void of the approve reference; success sets `AUTHORIZATIONID`, processed amount = requested amount, and success codes; an unsuccessful reply fails with its `ACK`/`L_ERRORCODE0` and changes only the two codes |
| ExpressCheckoutPlugin.ReverseDeposit | Plugin/ExpressCheckoutPlugin.php:161-179 | one full refund of the first deposit; pending iff the refund status is `delayed`, with no reason and the transaction unchanged; any other refund status succeeds with `REFUNDTRANSACTIONID`/`GROSSREFUNDAMT`; an unsuccessful reply fails with its `ACK`/`L_ERRORCODE0` and changes only the two codes |
| CheckoutProperties.ResumeReusesToken | Plugin/ExpressCheckoutPlugin.php:277-296 | after a fresh-token redirect, approve on the updated transaction starts with the details query for the token it redirected to and issues no token request |
| CheckoutProperties.StoredTokenIgnoresConfiguration | Plugin/ExpressCheckoutPlugin.php:277-282 | with a stored token, checkout completion is the same under any URL configuration |
| CheckoutProperties.UnverifiedPayerIsRedirected | Plugin/ExpressCheckoutPlugin.php:213-224 | `PaymentActionNotInitiated` with a non-verified payer redirects with the transaction unchanged, and only the details query is issued |
| CheckoutProperties.PayerIdSurvivesFailedPayment | Plugin/ExpressCheckoutPlugin.php:227-237 | whenever the checkout may proceed and the payment call fails, the result is that reply's `ACK`/`L_ERRORCODE0` failure with the payer id kept in the extended data and nothing else changed |
| CheckoutProperties.PendingAuthorizationActsAsCompleted | Plugin/ExpressCheckoutPlugin.php:239-266 | a payment `Pending` for reason `authorization` yields the same outcome, transaction and calls as the same reply with status `Completed` |
| CheckoutProperties.CaptureRetryBounded | Plugin/ExpressCheckoutPlugin.php:313-348 | the capture step issues at most three calls: at most two captures, at most one reauthorization, no details query |
| CheckoutProperties.DepositRetryBounded | Plugin/ExpressCheckoutPlugin.php:106-111 | a deposit issues at most four calls, at most two captures and at most one reauthorization |
| CheckoutProperties.SecondCaptureStatusIgnored | Plugin/ExpressCheckoutPlugin.php:336-347 | after expiry and a completed reauthorization, the second capture's status does not affect the deposit; its `TRANSACTIONID` is queried |
| CheckoutProperties.HardFailureChangesOnlyCodes | Plugin/ExpressCheckoutPlugin.php:356-369 | for all six operations, a hard failure changes only the response and reason codes; the only other change is the `PAYERID` of the details reply, stored as payer id when approve / approveAndDeposit issued the payment call and that call failed or was declined |
| CheckoutProperties.AmountsChangeOnlyWhenAccepted | Plugin/ExpressCheckoutPlugin.php:93-178 | for all six operations, the processed amount changes only on success and the reference number only on success or pending |
| CheckoutProperties.SuccessAndRedirectShapes | Plugin/ExpressCheckoutPlugin.php:67-75 | for all six operations, success records the success response code; a redirect comes only from approve / approveAndDeposit and changes at most the stored token |
| CheckoutProperties.IncompleteReauthorizationKeepsFirstCapture | Plugin/ExpressCheckoutPlugin.php:329-347 | when the reauthorization is not `Completed`, no second capture is issued and the first capture's `TRANSACTIONID` is queried |

## Left out

- Transport. HTTP, request serialisation and the client's reply parsing are not modelled. A reply is given directly as its success flag and field map. How the client derives the success flag from `ACK` is not part of this model.
- The client's amount formatting (`convertAmountToPaypalFormat`). A partial refund carries the requested amount in cents.
- The redirect URL builder. It is modelled as the opaque constructor `AuthenticateToken(token)`.
- `Number::compare`, which is float-based. All amounts the plugin compares are integer cents, and comparison is integer equality.
- Amounts written from a reply are kept as the raw field (`Amount.Reported`). They are not parsed.
- The framework's Payment, Credit and PaymentInstruction objects. Only the fields the plugin reads are kept.
  - A payment with no approve transaction or no deposit transaction is outside the model. PHP fails on the null object there.
  - `credit` takes its currency from the credit's payment instruction. The model uses the payment's currency.
- Exceptions: their classes and message texts are left out. Only the outcome kind and the pending reason set on the exception are kept.
- PHP loose comparison. `==` and `switch` on statuses are modelled as string equality on the field, and an absent field never matches a status.
- `ExtendedData` is narrowed to the keys the plugin uses.
  - A successful SetExpressCheckout whose reply lacks `TOKEN` stores "no token". PHP would store a null entry.
  - Reading an absent `authorization_id` in `credit` passes "no id" to the refund call. The framework's own behaviour for a missing key is not part of this model.
  - The framework's success code values `success` / `none` come from its plugin interface, which is not part of this model.
- The constructor, configuration wiring and the unused `$retry` argument are left out.

=== FILE: express_checkout.dfy ===
/**
 The express-checkout plugin: the six financial operations of the payment
 framework mapped onto gateway calls, with token acquisition, checkout
 completion, capture with one reauthorization retry, refunds and void.

 Every operation is a pure function of the transaction, the payment it belongs
 to, the configuration and the scripted gateway, and yields the outcome, the
 updated transaction and the log of gateway calls it issued.
 */
module ExpressCheckoutPlugin {
  import opened Optional
  import opened Gateway
  import opened Transactions

  const PaymentSystemName: string := "paypal_express_checkout"

  /** The pending reason of a payment that has been authorized but not yet captured. */
  const ReasonCodeAuthorization: string := "authorization"

  /** The plugin handles exactly one payment system. */
  function Processes(paymentSystemName: string): (r: bool)
    ensures r <==> paymentSystemName == PaymentSystemName
  {
    PaymentSystemName == paymentSystemName
  }

  /** Credits are only ever issued against an earlier payment. */
  function IsIndependentCreditSupported(): (r: bool)
    ensures !r
  {
    false
  }

  /** Stop with a hard failure after recording both codes on the transaction. */
  function Decline<T>(st: State, responseCode: Option<string>, reasonCode: Option<string>): (r: Step<T>)
    ensures r.Halt? && r.outcome == Failed(responseCode, reasonCode) && r.state.calls == st.calls
    ensures Recorded(r.outcome, r.state.txn)
    ensures r.state.txn.(responseCode := st.txn.responseCode, reasonCode := st.txn.reasonCode) == st.txn
  {
    Halt(Failed(responseCode, reasonCode), st.(txn := st.txn.(responseCode := responseCode, reasonCode := reasonCode)))
  }

  /**
   The single choke point for unsuccessful replies: a successful reply leaves
   everything as it is; any other reply records its ACK as the response code and
   its first error code as the reason code, and fails.
   */
  function ThrowUnlessSuccessResponse(response: Response, st: State): (r: Step<()>)
    ensures r.Next? <==> response.success
    ensures r.Next? ==> r.state == st
    ensures r.Halt? ==> r.outcome == Failed(Field(response, "ACK"), Field(response, "L_ERRORCODE0"))
    ensures r.Halt? ==> Recorded(r.outcome, r.state.txn) && r.state.calls == st.calls
    ensures r.Halt? ==> r.state.txn.(responseCode := st.txn.responseCode, reasonCode := st.txn.reasonCode) == st.txn
  {
    if response.success then Next((), st)
    else Decline(st, Field(response, "ACK"), Field(response, "L_ERRORCODE0"))
  }

  /** Issue one call, answered by the next scripted reply, and pass that reply through the choke point. */
  function Request(st: State, call: Call, gw: Script): (r: Step<Response>)
    ensures r.state.calls == st.calls + [call]
    ensures r.Next? <==> gw(|st.calls|).success
    ensures r.Next? ==> r.value == gw(|st.calls|) && r.state.txn == st.txn
    ensures r.Halt? ==> r.outcome == Failed(Field(gw(|st.calls|), "ACK"), Field(gw(|st.calls|), "L_ERRORCODE0"))
    ensures r.Halt? ==> Recorded(r.outcome, r.state.txn)
    ensures r.Halt? ==> r.state.txn.(responseCode := st.txn.responseCode, reasonCode := st.txn.reasonCode) == st.txn
  {
    var response := gw(|st.calls|);
    var issued := st.(calls := st.calls + [call]);
    var checked :- ThrowUnlessSuccessResponse(response, issued);
    Next(response, checked.1)
  }

  /**
   A URL is the per-transaction override when one is stored, even an empty one;
   otherwise the configured default when it is not empty; otherwise there is none.
   */
  function ResolveUrl(override: Option<string>, configured: string): (r: Option<string>)
    ensures override.Some? ==> r == override
    ensures override.None? ==> (r.Some? <==> configured != "")
    ensures override.None? && r.Some? ==> r.value == configured
  {
    if override.Some? then override
    else if |configured| != 0 then Some(configured)
    else None
  }

  /** getReturnUrl: the transaction's override, else the configured default. */
  function ReturnUrl(cfg: Config, data: ExtendedData): (url: Option<string>)
  {
    ResolveUrl(data.returnUrl, cfg.returnUrl)
  }

  /** getCancelUrl: the transaction's override, else the configured default. */
  function CancelUrl(cfg: Config, data: ExtendedData): (url: Option<string>)
  {
    ResolveUrl(data.cancelUrl, cfg.cancelUrl)
  }

  /**
   The options of a token request: the caller's checkout parameters (none when
   absent) with the payment action and the currency forced, every other key kept.
   */
  function CheckoutOptions(params: Option<map<string, string>>, action: PaymentAction, currency: string): (opts: map<string, string>)
    ensures var base := if params.Some? then params.value else map[];
      && opts.Keys == base.Keys + {"PAYMENTREQUEST_0_PAYMENTACTION", "PAYMENTREQUEST_0_CURRENCYCODE"}
      && (forall k | k in base && k != "PAYMENTREQUEST_0_PAYMENTACTION" && k != "PAYMENTREQUEST_0_CURRENCYCODE" :: opts[k] == base[k])
    ensures opts["PAYMENTREQUEST_0_PAYMENTACTION"] == action.Name()
    ensures opts["PAYMENTREQUEST_0_CURRENCYCODE"] == currency
  {
    var base := if params.Some? then params.value else map[];
    base["PAYMENTREQUEST_0_PAYMENTACTION" := action.Name()]["PAYMENTREQUEST_0_CURRENCYCODE" := currency]
  }

  /**
   A stored token is reused without any gateway call. Otherwise both URLs are
   resolved (a missing one fails before any call), the token is requested, and a
   successful request stores the token and always sends the buyer away: a fresh
   token never lets the operation continue.
   */
  function ObtainExpressCheckoutToken(cfg: Config, currency: string, action: PaymentAction, st: State, gw: Script): (r: Step<string>)
    ensures st.txn.data.token.Some? ==> r == Next(st.txn.data.token.value, st)
    ensures st.txn.data.token.None? ==> r.Halt?
    ensures r.Halt? ==> r.outcome.MissingUrl? || r.outcome.Failed? || r.outcome.ActionRequired?
    ensures r.Halt? ==> Recorded(r.outcome, r.state.txn) && Untouched(st.txn, r.state.txn)
    ensures st.txn.data.token.None? ==>
      (r.outcome.MissingUrl? <==> ReturnUrl(cfg, st.txn.data).None? || CancelUrl(cfg, st.txn.data).None?)
    ensures r.Halt? && r.outcome.MissingUrl? ==>
      r.state == st && (r.outcome.which == ReturnUrlKind <==> ReturnUrl(cfg, st.txn.data).None?)
    ensures st.txn.data.token.None? && !r.outcome.MissingUrl? ==>
      && ReturnUrl(cfg, st.txn.data).Some? && CancelUrl(cfg, st.txn.data).Some?
      && r.state.calls == st.calls + [SetExpressCheckout(st.txn.requestedAmount,
           ReturnUrl(cfg, st.txn.data).value, CancelUrl(cfg, st.txn.data).value,
           CheckoutOptions(st.txn.data.checkoutParams, action, currency))]
      && (r.outcome.ActionRequired? <==> gw(|st.calls|).success)
    ensures r.Halt? && r.outcome.ActionRequired? ==>
      var token := Field(gw(|st.calls|), "TOKEN");
      r.outcome.visit == AuthenticateToken(token) && r.state.txn == st.txn.(data := st.txn.data.(token := token))
    ensures r.Halt? && r.outcome.Failed? ==> r.state.txn.data == st.txn.data
  {
    var data := st.txn.data;
    if data.token.Some? then Next(data.token.value, st)
    else
      var options := CheckoutOptions(data.checkoutParams, action, currency);
      var returnUrl := ReturnUrl(cfg, data);
      var cancelUrl := CancelUrl(cfg, data);
      if returnUrl.None? then Halt(MissingUrl(ReturnUrlKind), st)
      else if cancelUrl.None? then Halt(MissingUrl(CancelUrlKind), st)
      else
        var registered :- Request(st, SetExpressCheckout(st.txn.requestedAmount, returnUrl.value, cancelUrl.value, options), gw);
        var (response, issued) := registered;
        var token := Field(response, "TOKEN");
        Halt(ActionRequired(AuthenticateToken(token)), issued.(txn := issued.txn.(data := issued.txn.data.(token := token))))
  }

  /** What a CHECKOUTSTATUS means for the checkout. */
  datatype CheckoutDecision = CheckoutFailed | Proceed | AwaitingBuyer

  /**
   A failed payment action fails; a completed one proceeds; one not yet
   initiated proceeds only for a verified payer and otherwise, like every other
   status, waits for the buyer.
   */
  function ClassifyCheckoutStatus(status: Option<string>, payerStatus: Option<string>): (d: CheckoutDecision)
    ensures d == CheckoutFailed <==> status == Some("PaymentActionFailed")
    ensures d == Proceed <==>
      status == Some("PaymentActionCompleted") || (status == Some("PaymentActionNotInitiated") && payerStatus == Some("verified"))
  {
    if status == Some("PaymentActionFailed") then CheckoutFailed
    else if status == Some("PaymentActionCompleted") then Proceed
    else if status == Some("PaymentActionNotInitiated") && payerStatus == Some("verified") then Proceed
    else AwaitingBuyer
  }

  /** What a PAYMENTINFO_0_PAYMENTSTATUS means for the checkout. */
  datatype PaymentDecision = Paid | StillPending | Declined

  /**
   A completed payment is paid, and so is one pending only because it has been
   authorized and awaits capture; any other pending payment is still pending;
   everything else is declined.
   */
  function ClassifyPaymentStatus(status: Option<string>, pendingReason: Option<string>): (d: PaymentDecision)
    ensures d == Paid <==>
      status == Some("Completed") || (status == Some("Pending") && pendingReason == Some(ReasonCodeAuthorization))
    ensures d == StillPending <==> status == Some("Pending") && pendingReason != Some(ReasonCodeAuthorization)
  {
    if status == Some("Completed") then Paid
    else if status == Some("Pending") then
      if pendingReason != Some(ReasonCodeAuthorization) then StillPending else Paid
    else Declined
  }

  /**
   The part of checkout completion that follows token acquisition: query the
   checkout details, classify the checkout status, record the payer id, finalise
   the payment and classify the payment status.
   */
  function CompleteCheckout(pay: Payment, action: PaymentAction, token: string, st: State, gw: Script): (r: Step<()>)
    ensures Untouched(st.txn, r.state.txn)
    ensures r.Halt? ==> Recorded(r.outcome, r.state.txn) && (r.outcome.Failed? || r.outcome.Pending? || r.outcome.ActionRequired?)
    ensures var n := |st.calls|;
      var details := gw(n);
      var proceed := ClassifyCheckoutStatus(Field(details, "CHECKOUTSTATUS"), Field(details, "PAYERSTATUS")) == Proceed;
      var payerId := Field(details, "PAYERID");
      && n + 1 <= |r.state.calls| <= n + 2
      && r.state.calls[..n] == st.calls
      && r.state.calls[n] == GetExpressCheckoutDetails(token)
      && (|r.state.calls| == n + 2 <==> details.success && proceed)
      && (|r.state.calls| == n + 2 ==>
            && r.state.calls[n + 1] == DoExpressCheckoutPayment(token, st.txn.requestedAmount, action, payerId, pay.currency)
            && r.state.txn.data == st.txn.data.(payerId := payerId))
      && (|r.state.calls| == n + 1 ==> r.state.txn.data == st.txn.data)
      // an unsuccessful reply, or a checkout or payment that fails, changes only the two codes (and the payer id once recorded)
      && (r.Halt? && r.outcome.Failed? ==>
            r.state.txn == st.txn.(responseCode := r.outcome.responseCode, reasonCode := r.outcome.reasonCode,
                                   data := if |r.state.calls| == n + 2 then st.txn.data.(payerId := payerId) else st.txn.data))
      && (!details.success ==> r.Halt? && r.outcome == Failed(Field(details, "ACK"), Field(details, "L_ERRORCODE0")))
      && (|r.state.calls| == n + 2 && !gw(n + 1).success ==>
            r.Halt? && r.outcome == Failed(Field(gw(n + 1), "ACK"), Field(gw(n + 1), "L_ERRORCODE0")))
      && (details.success ==>
            match ClassifyCheckoutStatus(Field(details, "CHECKOUTSTATUS"), Field(details, "PAYERSTATUS"))
            case CheckoutFailed => r.Halt? && r.outcome == Failed(Some("Failed"), Some("PaymentActionFailed"))
            case AwaitingBuyer => r.Halt? && r.outcome == ActionRequired(AuthenticateToken(Some(token))) && r.state.txn == st.txn
            case Proceed => true)
      // once the payment call succeeded, its status decides
      && (|r.state.calls| == n + 2 && gw(n + 1).success ==>
            var status := Field(gw(n + 1), "PAYMENTINFO_0_PAYMENTSTATUS");
            var reason := Field(gw(n + 1), "PAYMENTINFO_0_PENDINGREASON");
            match ClassifyPaymentStatus(status, reason)
            case Paid => r.Next?
            case StillPending => r.Halt? && r.outcome == Pending(reason)
            case Declined => r.Halt? && r.outcome == Failed(Some("Failed"), status))
      && (r.Next? ==>
            && |r.state.calls| == n + 2 && gw(n + 1).success
            && r.state.txn == st.txn.(referenceNumber := Field(gw(n + 1), "PAYMENTINFO_0_TRANSACTIONID"),
                                      processedAmount := Reported(Field(gw(n + 1), "PAYMENTINFO_0_AMT")),
                                      responseCode := Some(ResponseCodeSuccess), reasonCode := Some(ReasonCodeSuccess),
                                      data := st.txn.data.(payerId := payerId)))
      && (r.Halt? && r.outcome.Pending? ==>
            && |r.state.calls| == n + 2 && gw(n + 1).success
            && r.state.txn == st.txn.(referenceNumber := Field(gw(n + 1), "PAYMENTINFO_0_TRANSACTIONID"),
                                      data := st.txn.data.(payerId := payerId)))
  {
    var queried :- Request(st, GetExpressCheckoutDetails(token), gw);
    var (details, st2) := queried;
    match ClassifyCheckoutStatus(Field(details, "CHECKOUTSTATUS"), Field(details, "PAYERSTATUS"))
    case CheckoutFailed => Decline(st2, Some("Failed"), Some("PaymentActionFailed"))
    case AwaitingBuyer => Halt(ActionRequired(AuthenticateToken(Some(token))), st2)
    case Proceed =>
      var payerId := Field(details, "PAYERID");
      var st3 := st2.(txn := st2.txn.(data := st2.txn.data.(payerId := payerId)));
      var paid :- Request(st3, DoExpressCheckoutPayment(token, st.txn.requestedAmount, action, payerId, pay.currency), gw);
      var (payment, st4) := paid;
      var status := Field(payment, "PAYMENTINFO_0_PAYMENTSTATUS");
      var reason := Field(payment, "PAYMENTINFO_0_PENDINGREASON");
      var transactionId := Field(payment, "PAYMENTINFO_0_TRANSACTIONID");
      match ClassifyPaymentStatus(status, reason)
      case Declined => Decline(st4, Some("Failed"), status)
      case StillPending => Halt(Pending(reason), st4.(txn := st4.txn.(referenceNumber := transactionId)))
      case Paid =>
        Next((), st4.(txn := st4.txn.(referenceNumber := transactionId,
                                      processedAmount := Reported(Field(payment, "PAYMENTINFO_0_AMT")),
                                      responseCode := Some(ResponseCodeSuccess),
                                      reasonCode := Some(ReasonCodeSuccess))))
  }

  /**
   Checkout completion, shared by approve (action Authorization) and
   approveAndDeposit (action Sale). Without a stored token the operation stops in
   token acquisition. With one, it queries the checkout details, classifies the
   checkout status, records the payer id, finalises the payment and classifies the
   payment status.
   */
  function CreateCheckoutBillingAgreement(cfg: Config, pay: Payment, txn: Transaction, action: PaymentAction, gw: Script): (r: Run)
    ensures Recorded(r.outcome, r.txn) && Untouched(txn, r.txn)
    // without a token: never a success nor a pending payment, at most the token request
    ensures txn.data.token.None? ==>
      && (r.outcome.MissingUrl? || r.outcome.Failed? || r.outcome.ActionRequired?)
      && |r.calls| <= 1
      && (r.calls != [] ==> r.calls[0].SetExpressCheckout?)
      && r.txn.referenceNumber == txn.referenceNumber && r.txn.processedAmount == txn.processedAmount
    ensures r.outcome.MissingUrl? ==> r.calls == [] && r.txn == txn
    // without a token: a missing URL stops at once; otherwise one token request, and its success redirects to the new token
    ensures txn.data.token.None? ==>
      && (r.outcome.MissingUrl? <==> ReturnUrl(cfg, txn.data).None? || CancelUrl(cfg, txn.data).None?)
      && (r.outcome.MissingUrl? ==> (r.outcome.which == ReturnUrlKind <==> ReturnUrl(cfg, txn.data).None?))
    ensures txn.data.token.None? && ReturnUrl(cfg, txn.data).Some? && CancelUrl(cfg, txn.data).Some? ==>
      && r.calls == [SetExpressCheckout(txn.requestedAmount, ReturnUrl(cfg, txn.data).value, CancelUrl(cfg, txn.data).value,
                                        CheckoutOptions(txn.data.checkoutParams, action, pay.currency))]
      && (r.outcome.ActionRequired? <==> gw(0).success)
      && (gw(0).success ==>
            && r.outcome == ActionRequired(AuthenticateToken(Field(gw(0), "TOKEN")))
            && r.txn == txn.(data := txn.data.(token := Field(gw(0), "TOKEN"))))
    ensures txn.data.token.None? && |r.calls| == 1 && !gw(0).success ==>
      && r.outcome == Failed(Field(gw(0), "ACK"), Field(gw(0), "L_ERRORCODE0"))
      && r.txn == txn.(responseCode := Field(gw(0), "ACK"), reasonCode := Field(gw(0), "L_ERRORCODE0"))
    // a hard failure changes nothing but the two codes and the payer id recorded before the payment call
    ensures r.outcome.Failed? ==>
      r.txn == txn.(responseCode := r.outcome.responseCode, reasonCode := r.outcome.reasonCode,
                    data := if |r.calls| == 2 then txn.data.(payerId := Field(gw(0), "PAYERID")) else txn.data)
    // with a token: the details query, then the payment call only when the checkout may proceed
    ensures txn.data.token.Some? ==>
      var token := txn.data.token.value;
      var details := gw(0);
      var proceed := ClassifyCheckoutStatus(Field(details, "CHECKOUTSTATUS"), Field(details, "PAYERSTATUS")) == Proceed;
      && 1 <= |r.calls| <= 2
      && r.calls[0] == GetExpressCheckoutDetails(token)
      && (|r.calls| == 2 <==> details.success && proceed)
      && (|r.calls| == 2 ==>
            && r.calls[1] == DoExpressCheckoutPayment(token, txn.requestedAmount, action, Field(details, "PAYERID"), pay.currency)
            && r.txn.data == txn.data.(payerId := Field(details, "PAYERID")))
      && (|r.calls| == 1 ==> r.txn.data == txn.data)
    ensures txn.data.token.Some? && !gw(0).success ==>
      && r.outcome == Failed(Field(gw(0), "ACK"), Field(gw(0), "L_ERRORCODE0"))
      && r.txn == txn.(responseCode := Field(gw(0), "ACK"), reasonCode := Field(gw(0), "L_ERRORCODE0"))
    ensures |r.calls| == 2 && !gw(1).success ==>
      && r.outcome == Failed(Field(gw(1), "ACK"), Field(gw(1), "L_ERRORCODE0"))
      && r.txn == txn.(responseCode := Field(gw(1), "ACK"), reasonCode := Field(gw(1), "L_ERRORCODE0"),
                       data := txn.data.(payerId := Field(gw(0), "PAYERID")))
    ensures txn.data.token.Some? && gw(0).success ==>
      match ClassifyCheckoutStatus(Field(gw(0), "CHECKOUTSTATUS"), Field(gw(0), "PAYERSTATUS"))
      case CheckoutFailed => r.outcome == Failed(Some("Failed"), Some("PaymentActionFailed"))
      case AwaitingBuyer => r.outcome == ActionRequired(AuthenticateToken(txn.data.token)) && r.txn == txn
      case Proceed => true
    // the payment status decides the outcome once the payment call succeeded
    ensures |r.calls| == 2 && gw(1).success ==>
      var status := Field(gw(1), "PAYMENTINFO_0_PAYMENTSTATUS");
      var reason := Field(gw(1), "PAYMENTINFO_0_PENDINGREASON");
      match ClassifyPaymentStatus(status, reason)
      case Paid => r.outcome == Success
      case StillPending => r.outcome == Pending(reason)
      case Declined => r.outcome == Failed(Some("Failed"), status)
    ensures r.outcome.Success? ==> |r.calls| == 2 && gw(1).success
    ensures r.outcome.Success? ==>
      r.txn == txn.(referenceNumber := Field(gw(1), "PAYMENTINFO_0_TRANSACTIONID"),
                    processedAmount := Reported(Field(gw(1), "PAYMENTINFO_0_AMT")),
                    responseCode := Some(ResponseCodeSuccess), reasonCode := Some(ReasonCodeSuccess),
                    data := txn.data.(payerId := Field(gw(0), "PAYERID")))
    ensures r.outcome.Pending? ==>
      && |r.calls| == 2 && gw(1).success
      && r.txn == txn.(referenceNumber := Field(gw(1), "PAYMENTINFO_0_TRANSACTIONID"),
                       data := txn.data.(payerId := Field(gw(0), "PAYERID")))
  {
    Finish(
      var obtained :- ObtainExpressCheckoutToken(cfg, pay.currency, action, State(txn, []), gw);
      var (token, st1) := obtained;
      CompleteCheckout(pay, action, token, st1, gw))
  }

  /**
   Every token request of checkout completion carries the options built for its
   payment action, and every payment call carries that action.
   */
  lemma CheckoutCallsCarryAction(cfg: Config, pay: Payment, txn: Transaction, action: PaymentAction, gw: Script)
    ensures var r := CreateCheckoutBillingAgreement(cfg, pay, txn, action, gw);
      && (forall i | 0 <= i < |r.calls| :: r.calls[i].DoExpressCheckoutPayment? ==> r.calls[i].action == action)
      && (forall i | 0 <= i < |r.calls| :: r.calls[i].SetExpressCheckout? ==>
            r.calls[i].options == CheckoutOptions(txn.data.checkoutParams, action, pay.currency))
  {
    var r := CreateCheckoutBillingAgreement(cfg, pay, txn, action, gw);
    if txn.data.token.Some? {
      assert r.calls[0].GetExpressCheckoutDetails?;
    } else if r.calls != [] {
      assert ReturnUrl(cfg, txn.data).Some? && CancelUrl(cfg, txn.data).Some?;
    }
  }

  /** approve: checkout completion that only authorizes the payment. */
  function Approve(cfg: Config, pay: Payment, txn: Transaction, gw: Script): (r: Run)
    ensures Recorded(r.outcome, r.txn) && Untouched(txn, r.txn)
    ensures forall i | 0 <= i < |r.calls| :: r.calls[i].DoExpressCheckoutPayment? ==> r.calls[i].action == Authorization
    ensures forall i | 0 <= i < |r.calls| :: r.calls[i].SetExpressCheckout? ==>
      "PAYMENTREQUEST_0_PAYMENTACTION" in r.calls[i].options && r.calls[i].options["PAYMENTREQUEST_0_PAYMENTACTION"] == "Authorization"
  {
    CheckoutCallsCarryAction(cfg, pay, txn, Authorization, gw);
    CreateCheckoutBillingAgreement(cfg, pay, txn, Authorization, gw)
  }

  /** approveAndDeposit: checkout completion that authorizes and settles in one go. */
  function ApproveAndDeposit(cfg: Config, pay: Payment, txn: Transaction, gw: Script): (r: Run)
    ensures Recorded(r.outcome, r.txn) && Untouched(txn, r.txn)
    ensures forall i | 0 <= i < |r.calls| :: r.calls[i].DoExpressCheckoutPayment? ==> r.calls[i].action == Sale
    ensures forall i | 0 <= i < |r.calls| :: r.calls[i].SetExpressCheckout? ==>
      "PAYMENTREQUEST_0_PAYMENTACTION" in r.calls[i].options && r.calls[i].options["PAYMENTREQUEST_0_PAYMENTACTION"] == "Sale"
  {
    CheckoutCallsCarryAction(cfg, pay, txn, Sale, gw);
    CreateCheckoutBillingAgreement(cfg, pay, txn, Sale, gw)
  }

  /** A capture completes the authorization exactly when it takes the whole approved amount. */
  function CompletionType(approvedAmount: int, requestedAmount: int): (t: CompleteType)
    ensures t == Complete <==> approvedAmount == requestedAmount
  {
    if approvedAmount == requestedAmount then Complete else NotComplete
  }

  /**
   doCapture: capture the approve transaction's authorization. When the capture reports the
   authorization expired, reauthorize once; only a completed reauthorization is
   followed by a second capture, under the new authorization id. The result is the
   id of the last capture issued, whatever that capture's status.
   */
  function CaptureWithRetry(pay: Payment, st: State, gw: Script): (r: Step<Option<string>>)
    ensures var n := |st.calls|;
      var amount := st.txn.requestedAmount;
      var completeType := CompletionType(pay.approvedAmount, amount);
      var expired := gw(n).success && Field(gw(n), "PAYMENTSTATUS") == Some("Expired");
      var renewed := expired && gw(n + 1).success && Field(gw(n + 1), "PAYMENTSTATUS") == Some("Completed");
      && n < |r.state.calls| <= n + 3
      && r.state.calls[..n] == st.calls
      && r.state.calls[n] == DoCapture(pay.approveReference, amount, completeType, pay.currency)
      && (|r.state.calls| >= n + 2 <==> expired)
      && (expired ==> r.state.calls[n + 1] == DoReauthorization(pay.approveReference, amount, completeType, pay.currency))
      && (|r.state.calls| == n + 3 <==> renewed)
      && (renewed ==> r.state.calls[n + 2] == DoCapture(Field(gw(n + 1), "AUTHORIZATIONID"), amount, completeType, pay.currency))
      && (r.Next? <==> gw(n).success && (expired ==> gw(n + 1).success) && (renewed ==> gw(n + 2).success))
      && (r.Next? ==> r.value == Field(gw(if renewed then n + 2 else n), "TRANSACTIONID"))
    ensures r.Next? ==> r.state.txn == st.txn
    ensures r.Halt? ==>
      var last := gw(|r.state.calls| - 1);
      && !last.success
      && r.outcome == Failed(Field(last, "ACK"), Field(last, "L_ERRORCODE0"))
      && r.state.txn == st.txn.(responseCode := Field(last, "ACK"), reasonCode := Field(last, "L_ERRORCODE0"))
  {
    var authorizationId := pay.approveReference;
    var amount := st.txn.requestedAmount;
    var completeType := CompletionType(pay.approvedAmount, amount);
    var captured :- Request(st, DoCapture(authorizationId, amount, completeType, pay.currency), gw);
    var (capture, st1) := captured;
    if Field(capture, "PAYMENTSTATUS") != Some("Expired") then Next(Field(capture, "TRANSACTIONID"), st1)
    else
      var reauthorized :- Request(st1, DoReauthorization(authorizationId, amount, completeType, pay.currency), gw);
      var (reauthorization, st2) := reauthorized;
      if Field(reauthorization, "PAYMENTSTATUS") != Some("Completed") then Next(Field(capture, "TRANSACTIONID"), st2)
      else
        var recaptured :- Request(st2, DoCapture(Field(reauthorization, "AUTHORIZATIONID"), amount, completeType, pay.currency), gw);
        var (recapture, st3) := recaptured;
        Next(Field(recapture, "TRANSACTIONID"), st3)
  }

  /**
   deposit: capture, then query the captured transaction and classify its
   payment status. A pending payment leaves the transaction as it was and
   carries no pending reason: the reason only reaches the exception's message.
   */
  function Deposit(pay: Payment, txn: Transaction, gw: Script): (r: Run)
    ensures Recorded(r.outcome, r.txn) && Untouched(txn, r.txn) && r.txn.data == txn.data
    ensures r.outcome.Success? || r.outcome.Pending? || r.outcome.Failed?
    ensures r.outcome.Pending? ==> r.outcome.reason == None
    ensures r.outcome.Failed? ==> r.txn == txn.(responseCode := r.outcome.responseCode, reasonCode := r.outcome.reasonCode)
    ensures var c := CaptureWithRetry(pay, State(txn, []), gw);
      && (c.Halt? ==> r.calls == c.state.calls && r.outcome == c.outcome && r.txn == c.state.txn)
      && (c.Next? ==>
            var details := gw(|c.state.calls|);
            var status := Field(details, "PAYMENTSTATUS");
            && r.calls == c.state.calls + [GetTransactionDetails(c.value)]
            && (r.outcome.Success? <==> details.success && status == Some("Completed"))
            && (r.outcome.Pending? <==> details.success && status == Some("Pending"))
            && (r.outcome.Success? ==>
                  r.txn == txn.(referenceNumber := Field(details, "TRANSACTIONID"),
                                processedAmount := Reported(Field(details, "AMT")),
                                responseCode := Some(ResponseCodeSuccess), reasonCode := Some(ReasonCodeSuccess)))
            && (r.outcome.Pending? ==> r.txn == txn)
            && (!details.success ==>
                  && r.outcome == Failed(Field(details, "ACK"), Field(details, "L_ERRORCODE0"))
                  && r.txn == txn.(responseCode := Field(details, "ACK"), reasonCode := Field(details, "L_ERRORCODE0")))
            && (details.success && status != Some("Completed") && status != Some("Pending") ==>
                  r.outcome == Failed(Some("Failed"), status)))
  {
    Finish(
      var captured :- CaptureWithRetry(pay, State(txn, []), gw);
      var (transactionId, st1) := captured;
      var queried :- Request(st1, GetTransactionDetails(transactionId), gw);
      var (details, st2) := queried;
      var status := Field(details, "PAYMENTSTATUS");
      if status == Some("Completed") then
        Next((), st2.(txn := st2.txn.(referenceNumber := Field(details, "TRANSACTIONID"),
                                      processedAmount := Reported(Field(details, "AMT")),
                                      responseCode := Some(ResponseCodeSuccess),
                                      reasonCode := Some(ReasonCodeSuccess))))
      else if status == Some("Pending") then Halt(Pending(None), st2)
      else Decline(st2, Some("Failed"), status))
  }

  /**
   credit: refund against the authorization id stored in the extended data, in
   part when the requested amount differs from what the approve transaction
   processed. Success records the refund and the response code only.
   */
  function Credit(pay: Payment, txn: Transaction, gw: Script): (r: Run)
    ensures Recorded(r.outcome, r.txn) && Untouched(txn, r.txn) && r.txn.data == txn.data
    ensures |r.calls| == 1 && r.calls[0].RefundTransaction? && r.calls[0].transactionId == txn.data.authorizationId
    ensures r.calls[0].refund.PartialRefund? <==> txn.requestedAmount != pay.approveProcessed
    ensures r.calls[0].refund.PartialRefund? ==>
      r.calls[0].refund.amount == txn.requestedAmount && r.calls[0].refund.currency == pay.currency
    ensures r.outcome.Success? <==> gw(0).success
    ensures !gw(0).success ==>
      && r.outcome == Failed(Field(gw(0), "ACK"), Field(gw(0), "L_ERRORCODE0"))
      && r.txn == txn.(responseCode := Field(gw(0), "ACK"), reasonCode := Field(gw(0), "L_ERRORCODE0"))
    ensures r.outcome.Success? || r.outcome.Failed?
    ensures r.outcome.Success? ==>
      r.txn == txn.(referenceNumber := Field(gw(0), "REFUNDTRANSACTIONID"),
                    processedAmount := Reported(Field(gw(0), "NETREFUNDAMT")),
                    responseCode := Some(ResponseCodeSuccess))
  {
    var refund := if txn.requestedAmount != pay.approveProcessed then PartialRefund(txn.requestedAmount, pay.currency) else FullRefund;
    Finish(
      var refunded :- Request(State(txn, []), RefundTransaction(txn.data.authorizationId, refund), gw);
      var (response, st1) := refunded;
      Next((), st1.(txn := st1.txn.(referenceNumber := Field(response, "REFUNDTRANSACTIONID"),
                                    processedAmount := Reported(Field(response, "NETREFUNDAMT")),
                                    responseCode := Some(ResponseCodeSuccess)))))
  }

  /**
   reverseApproval: void the approve transaction's authorization. Voids report
   no amount, so success records the requested amount as processed.
   */
  function ReverseApproval(pay: Payment, txn: Transaction, gw: Script): (r: Run)
    ensures Recorded(r.outcome, r.txn) && Untouched(txn, r.txn) && r.txn.data == txn.data
    ensures r.calls == [DoVoid(pay.approveReference)]
    ensures r.outcome.Success? <==> gw(0).success
    ensures !gw(0).success ==>
      && r.outcome == Failed(Field(gw(0), "ACK"), Field(gw(0), "L_ERRORCODE0"))
      && r.txn == txn.(responseCode := Field(gw(0), "ACK"), reasonCode := Field(gw(0), "L_ERRORCODE0"))
    ensures r.outcome.Success? || r.outcome.Failed?
    ensures r.outcome.Success? ==>
      r.txn == txn.(referenceNumber := Field(gw(0), "AUTHORIZATIONID"),
                    processedAmount := Cents(txn.requestedAmount),
                    responseCode := Some(ResponseCodeSuccess), reasonCode := Some(ReasonCodeSuccess))
  {
    Finish(
      var voided :- Request(State(txn, []), DoVoid(pay.approveReference), gw);
      var (response, st1) := voided;
      Next((), st1.(txn := st1.txn.(responseCode := Some(ResponseCodeSuccess),
                                    reasonCode := Some(ReasonCodeSuccess),
                                    referenceNumber := Field(response, "AUTHORIZATIONID"),
                                    processedAmount := Cents(st1.txn.requestedAmount)))))
  }

  /**
   reverseDeposit: refund the first deposit in full. Only a delayed refund is
   pending (with no pending reason, as in deposit); every other refund status,
   recognised or not, is a success.
   */
  function ReverseDeposit(pay: Payment, txn: Transaction, gw: Script): (r: Run)
    ensures Recorded(r.outcome, r.txn) && Untouched(txn, r.txn) && r.txn.data == txn.data
    ensures r.calls == [RefundTransaction(pay.firstDepositReference, FullRefund)]
    ensures r.outcome.Pending? <==> gw(0).success && Field(gw(0), "REFUNDSTATUS") == Some("delayed")
    ensures r.outcome.Success? <==> gw(0).success && Field(gw(0), "REFUNDSTATUS") != Some("delayed")
    ensures r.outcome.Success? || r.outcome.Pending? || r.outcome.Failed?
    ensures !gw(0).success ==>
      && r.outcome == Failed(Field(gw(0), "ACK"), Field(gw(0), "L_ERRORCODE0"))
      && r.txn == txn.(responseCode := Field(gw(0), "ACK"), reasonCode := Field(gw(0), "L_ERRORCODE0"))
    ensures r.outcome.Pending? ==> r.outcome.reason == None && r.txn == txn
    ensures r.outcome.Success? ==>
      r.txn == txn.(referenceNumber := Field(gw(0), "REFUNDTRANSACTIONID"),
                    processedAmount := Reported(Field(gw(0), "GROSSREFUNDAMT")),
                    responseCode := Some(ResponseCodeSuccess), reasonCode := Some(ReasonCodeSuccess))
  {
    Finish(
      var refunded :- Request(State(txn, []), RefundTransaction(pay.firstDepositReference, FullRefund), gw);
      var (response, st1) := refunded;
      if Field(response, "REFUNDSTATUS") == Some("delayed") then Halt(Pending(None), st1)
      else
        Next((), st1.(txn := st1.txn.(responseCode := Some(ResponseCodeSuccess),
                                      reasonCode := Some(ReasonCodeSuccess),
                                      referenceNumber := Field(response, "REFUNDTRANSACTIONID"),
                                      processedAmount := Reported(Field(response, "GROSSREFUNDAMT"))))))
  }
}

=== FILE: gateway.dfy ===
/** Optional values: `None` stands for PHP's `null`. */
module Optional {

  datatype Option<+T> = None | Some(value: T)
}

/**
 The payment gateway as the plugin sees it: name-value-pair replies, the calls
 the plugin issues, and a scripted oracle that answers them in order.
 */
module Gateway {
  import opened Optional

  /** A gateway reply: the envelope's success flag and its field map. */
  datatype Response = Response(success: bool, body: map<string, string>)

  /** `$response->body->get(key)`: the field's value, or None when the reply lacks it. */
  function Field(r: Response, key: string): (v: Option<string>)
    ensures v.Some? <==> key in r.body
    ensures v.Some? ==> v.value == r.body[key]
  {
    if key in r.body then Some(r.body[key]) else None
  }

  /** The scripted gateway: the n-th call an operation issues (counting from 0) is answered by Script(n). */
  type Script = nat -> Response

  /** The PAYMENTACTION an express checkout is finalised with. */
  datatype PaymentAction = Authorization | Sale {
    function Name(): string {
      match this
      case Authorization => "Authorization"
      case Sale => "Sale"
    }
  }

  /** The COMPLETETYPE of a capture or reauthorization. */
  datatype CompleteType = Complete | NotComplete

  /** The optional parameters of a refund: none (a full refund) or the partial-refund triple. */
  datatype RefundParams = FullRefund | PartialRefund(amount: int, currency: string)

  /** One request issued to the gateway, with the arguments the plugin passes. */
  datatype Call =
    | SetExpressCheckout(amount: int, returnUrl: string, cancelUrl: string, options: map<string, string>)
    | GetExpressCheckoutDetails(token: string)
    | DoExpressCheckoutPayment(token: string, amount: int, action: PaymentAction, payerId: Option<string>, currency: string)
    | DoCapture(authorizationId: Option<string>, amount: int, completeType: CompleteType, currency: string)
    | DoReauthorization(authorizationId: Option<string>, amount: int, completeType: CompleteType, currency: string)
    | GetTransactionDetails(transactionId: Option<string>)
    | RefundTransaction(transactionId: Option<string>, refund: RefundParams)
    | DoVoid(authorizationId: Option<string>)
  {
    function Kind(): CallKind {
      match this
      case SetExpressCheckout(_, _, _, _) => SetCheckoutCall
      case GetExpressCheckoutDetails(_) => CheckoutDetailsCall
      case DoExpressCheckoutPayment(_, _, _, _, _) => CheckoutPaymentCall
      case DoCapture(_, _, _, _) => CaptureCall
      case DoReauthorization(_, _, _, _) => ReauthorizationCall
      case GetTransactionDetails(_) => TransactionDetailsCall
      case RefundTransaction(_, _) => RefundCall
      case DoVoid(_) => VoidCall
    }
  }

  datatype CallKind =
    | SetCheckoutCall | CheckoutDetailsCall | CheckoutPaymentCall | CaptureCall
    | ReauthorizationCall | TransactionDetailsCall | RefundCall | VoidCall

  /** How many calls of the given kind a call log holds. */
  function Count(calls: seq<Call>, kind: CallKind): (n: nat)
  {
    if calls == [] then 0
    else (if calls[0].Kind() == kind then 1 else 0) + Count(calls[1..], kind)
  }

  /** Counting distributes over the concatenation of two call logs. */
  lemma {:induction false} CountAppend(a: seq<Call>, b: seq<Call>, kind: CallKind)
    ensures Count(a + b, kind) == Count(a, kind) + Count(b, kind)
  {
    if a == [] {
      assert a + b == b;
    } else {
      assert (a + b)[1..] == a[1..] + b;
      CountAppend(a[1..], b, kind);
    }
  }
}

=== FILE: properties.dfy ===
/**
 Properties that relate several runs of the plugin, or a run to the call budget
 and to the fields of the gateway replies it reads.
 */
module CheckoutProperties {
  import opened Optional
  import opened Gateway
  import opened Transactions
  import opened ExpressCheckoutPlugin

  /** The scripted gateway with one field of its n-th reply replaced. */
  function Amend(gw: Script, n: nat, key: string, value: string): (amended: Script)
    ensures amended(n) == Response(gw(n).success, gw(n).body[key := value])
    ensures forall m: nat | m != n :: amended(m) == gw(m)
  {
    (m: nat) => if m == n then Response(gw(m).success, gw(m).body[key := value]) else gw(m)
  }

  /** Counting over a log given element by element. */
  lemma {:induction false} CountCons(c: Call, rest: seq<Call>, kind: CallKind)
    ensures Count([c] + rest, kind) == (if c.Kind() == kind then 1 else 0) + Count(rest, kind)
  {
    assert ([c] + rest)[1..] == rest;
  }

  /**
   After a fresh token request sent the buyer away, invoking approve again on the
   updated transaction reuses the token the redirect was built from: it starts
   with the checkout-details query for that token and never requests another.
   */
  lemma ResumeReusesToken(cfg: Config, pay: Payment, txn: Transaction, first: Script, second: Script)
    requires txn.data.token.None?
    requires Approve(cfg, pay, txn, first).outcome.ActionRequired?
    requires Approve(cfg, pay, txn, first).outcome.visit.token.Some?
    ensures var resumed := Approve(cfg, pay, Approve(cfg, pay, txn, first).txn, second);
      && resumed.calls[0] == GetExpressCheckoutDetails(Approve(cfg, pay, txn, first).outcome.visit.token.value)
      && Count(resumed.calls, SetCheckoutCall) == 0
  {
    var r1 := Approve(cfg, pay, txn, first);
    var r2 := Approve(cfg, pay, r1.txn, second);
    assert r1.txn.data.token == r1.outcome.visit.token;
    if |r2.calls| == 1 {
      assert r2.calls == [r2.calls[0]] + [];
      CountCons(r2.calls[0], [], SetCheckoutCall);
    } else {
      assert r2.calls == [r2.calls[0]] + [r2.calls[1]];
      CountCons(r2.calls[0], [r2.calls[1]], SetCheckoutCall);
      CountCons(r2.calls[1], [], SetCheckoutCall);
    }
  }

  /**
   With a stored token the configured URLs play no part: approve and
   approveAndDeposit behave the same under any configuration.
   */
  lemma StoredTokenIgnoresConfiguration(cfg1: Config, cfg2: Config, pay: Payment, txn: Transaction, action: PaymentAction, gw: Script)
    requires txn.data.token.Some?
    ensures CreateCheckoutBillingAgreement(cfg1, pay, txn, action, gw) == CreateCheckoutBillingAgreement(cfg2, pay, txn, action, gw)
  {
  }

  /**
   A checkout not yet initiated by a payer who is not verified falls through to
   the redirect: the buyer is sent to authorize the stored token and no payment
   call is issued.
   */
  lemma UnverifiedPayerIsRedirected(cfg: Config, pay: Payment, txn: Transaction, action: PaymentAction, gw: Script)
    requires txn.data.token.Some?
    requires gw(0).success && Field(gw(0), "CHECKOUTSTATUS") == Some("PaymentActionNotInitiated")
    requires Field(gw(0), "PAYERSTATUS") != Some("verified")
    ensures var r := CreateCheckoutBillingAgreement(cfg, pay, txn, action, gw);
      && r.outcome == ActionRequired(AuthenticateToken(txn.data.token))
      && r.txn == txn
      && r.calls == [GetExpressCheckoutDetails(txn.data.token.value)]
  {
  }

  /**
   The payer id is recorded before the payment call, so it stays in the
   extended data when that call fails.
   */
  lemma PayerIdSurvivesFailedPayment(cfg: Config, pay: Payment, txn: Transaction, action: PaymentAction, gw: Script)
    requires txn.data.token.Some?
    requires gw(0).success
    requires ClassifyCheckoutStatus(Field(gw(0), "CHECKOUTSTATUS"), Field(gw(0), "PAYERSTATUS")) == Proceed
    requires !gw(1).success
    ensures var r := CreateCheckoutBillingAgreement(cfg, pay, txn, action, gw);
      && r.outcome == Failed(Field(gw(1), "ACK"), Field(gw(1), "L_ERRORCODE0"))
      && r.txn == txn.(responseCode := Field(gw(1), "ACK"), reasonCode := Field(gw(1), "L_ERRORCODE0"),
                       data := txn.data.(payerId := Field(gw(0), "PAYERID")))
  {
  }

  /**
   A payment pending only for the reason "authorization" ends exactly like a
   completed one: same outcome, same transaction, same calls.
   */
  lemma PendingAuthorizationActsAsCompleted(cfg: Config, pay: Payment, txn: Transaction, action: PaymentAction, gw: Script)
    requires Field(gw(1), "PAYMENTINFO_0_PAYMENTSTATUS") == Some("Pending")
    requires Field(gw(1), "PAYMENTINFO_0_PENDINGREASON") == Some(ReasonCodeAuthorization)
    ensures CreateCheckoutBillingAgreement(cfg, pay, txn, action, gw)
         == CreateCheckoutBillingAgreement(cfg, pay, txn, action, Amend(gw, 1, "PAYMENTINFO_0_PAYMENTSTATUS", "Completed"))
  {
  }

  /**
   The capture step of a deposit issues at most two captures and at most one
   reauthorization, and nothing else.
   */
  lemma CaptureRetryBounded(pay: Payment, txn: Transaction, gw: Script)
    ensures var calls := CaptureWithRetry(pay, State(txn, []), gw).state.calls;
      && |calls| <= 3
      && Count(calls, CaptureCall) <= 2
      && Count(calls, ReauthorizationCall) <= 1
      && Count(calls, TransactionDetailsCall) == 0
  {
    var calls := CaptureWithRetry(pay, State(txn, []), gw).state.calls;
    assert calls[0].DoCapture?;
    assert |calls| >= 2 ==> calls[1].DoReauthorization?;
    assert |calls| == 3 ==> calls[2].DoCapture?;
    var rest := calls[1..];
    assert calls == [calls[0]] + rest;
    CountCons(calls[0], rest, CaptureCall);
    CountCons(calls[0], rest, ReauthorizationCall);
    CountCons(calls[0], rest, TransactionDetailsCall);
    if |rest| >= 1 {
      assert rest == [rest[0]] + rest[1..];
      CountCons(rest[0], rest[1..], CaptureCall);
      CountCons(rest[0], rest[1..], ReauthorizationCall);
      CountCons(rest[0], rest[1..], TransactionDetailsCall);
      if |rest| == 2 {
        assert rest[1..] == [rest[1]] + [];
        CountCons(rest[1], [], CaptureCall);
        CountCons(rest[1], [], ReauthorizationCall);
        CountCons(rest[1], [], TransactionDetailsCall);
      }
    }
  }

  /**
   The capture retry is bounded: one deposit issues at most two captures, at
   most one reauthorization and at most four calls in all.
   */
  lemma DepositRetryBounded(pay: Payment, txn: Transaction, gw: Script)
    ensures var r := Deposit(pay, txn, gw);
      && |r.calls| <= 4
      && Count(r.calls, CaptureCall) <= 2
      && Count(r.calls, ReauthorizationCall) <= 1
  {
    var r := Deposit(pay, txn, gw);
    var c := CaptureWithRetry(pay, State(txn, []), gw);
    CaptureRetryBounded(pay, txn, gw);
    if c.Next? {
      var details := r.calls[|c.state.calls|];
      assert r.calls == c.state.calls + [details];
      CountAppend(c.state.calls, [details], CaptureCall);
      CountAppend(c.state.calls, [details], ReauthorizationCall);
      CountCons(details, [], CaptureCall);
      CountCons(details, [], ReauthorizationCall);
      assert [details] + [] == [details];
    }
  }

  /**
   A second capture that reports the authorization expired again is not itself a
   failure: its status is never read, and the deposit goes on to query the
   transaction that capture returned.
   */
  lemma SecondCaptureStatusIgnored(pay: Payment, txn: Transaction, gw: Script, status: string)
    requires gw(0).success && Field(gw(0), "PAYMENTSTATUS") == Some("Expired")
    requires gw(1).success && Field(gw(1), "PAYMENTSTATUS") == Some("Completed")
    requires gw(2).success
    ensures Deposit(pay, txn, gw).calls[3] == GetTransactionDetails(Field(gw(2), "TRANSACTIONID"))
    ensures Deposit(pay, txn, Amend(gw, 2, "PAYMENTSTATUS", status)) == Deposit(pay, txn, gw)
  {
    var amended := Amend(gw, 2, "PAYMENTSTATUS", status);
    assert amended(0) == gw(0) && amended(1) == gw(1) && amended(3) == gw(3);
    assert Field(amended(2), "TRANSACTIONID") == Field(gw(2), "TRANSACTIONID");
  }

  /**
   A reauthorization that does not complete ends the retry: the deposit queries
   the transaction id of the first, expired capture.
   */
  lemma IncompleteReauthorizationKeepsFirstCapture(pay: Payment, txn: Transaction, gw: Script)
    requires gw(0).success && Field(gw(0), "PAYMENTSTATUS") == Some("Expired")
    requires gw(1).success && Field(gw(1), "PAYMENTSTATUS") != Some("Completed")
    ensures var r := Deposit(pay, txn, gw);
      && |r.calls| == 3
      && r.calls[1].DoReauthorization?
      && r.calls[2] == GetTransactionDetails(Field(gw(0), "TRANSACTIONID"))
  {
  }

  /** The six financial operations the framework can ask the plugin for. */
  datatype Operation = ApproveOp | ApproveAndDepositOp | DepositOp | CreditOp | ReverseApprovalOp | ReverseDepositOp

  /** Dispatch one operation to the function that models it. */
  function Perform(op: Operation, cfg: Config, pay: Payment, txn: Transaction, gw: Script): (r: Run)
  {
    match op
    case ApproveOp => Approve(cfg, pay, txn, gw)
    case ApproveAndDepositOp => ApproveAndDeposit(cfg, pay, txn, gw)
    case DepositOp => Deposit(pay, txn, gw)
    case CreditOp => Credit(pay, txn, gw)
    case ReverseApprovalOp => ReverseApproval(pay, txn, gw)
    case ReverseDepositOp => ReverseDeposit(pay, txn, gw)
  }

  /**
   Whatever the operation, a hard failure records its two codes and changes
   nothing else, apart from the payer id that checkout completion writes before
   its payment call.
   */
  lemma HardFailureChangesOnlyCodes(op: Operation, cfg: Config, pay: Payment, txn: Transaction, gw: Script)
    ensures var r := Perform(op, cfg, pay, txn, gw);
      r.outcome.Failed? ==>
        r.txn == txn.(responseCode := r.outcome.responseCode, reasonCode := r.outcome.reasonCode,
                      data := if (op == ApproveOp || op == ApproveAndDepositOp) && |r.calls| == 2
                              then txn.data.(payerId := Field(gw(0), "PAYERID"))
                              else txn.data)
  {
  }

  /**
   Whatever the operation, the processed amount changes only on success, and the
   reference number only on success or a pending payment.
   */
  lemma AmountsChangeOnlyWhenAccepted(op: Operation, cfg: Config, pay: Payment, txn: Transaction, gw: Script)
    ensures var r := Perform(op, cfg, pay, txn, gw);
      && (r.txn.processedAmount != txn.processedAmount ==> r.outcome.Success?)
      && (r.txn.referenceNumber != txn.referenceNumber ==> r.outcome.Success? || r.outcome.Pending?)
  {
  }

  /**
   Whatever the operation, success records the success response code, and a
   redirect is raised only by checkout completion, changing at most the stored token.
   */
  lemma SuccessAndRedirectShapes(op: Operation, cfg: Config, pay: Payment, txn: Transaction, gw: Script)
    ensures var r := Perform(op, cfg, pay, txn, gw);
      && (r.outcome.Success? ==> r.txn.responseCode == Some(ResponseCodeSuccess))
      && (r.outcome.ActionRequired? ==>
            && (op == ApproveOp || op == ApproveAndDepositOp)
            && r.txn == txn.(data := txn.data.(token := r.txn.data.token)))
  {
  }
}

=== FILE: transactions.dfy ===
/**
 The part of the payment framework's data the plugin reads and writes: the
 financial transaction with its extended data, the payment it belongs to, the
 plugin's configuration, and the outcome of one operation.
 */
module Transactions {
  import opened Optional
  import opened Gateway

  /** The framework's success codes (PluginInterface::RESPONSE_CODE_SUCCESS / REASON_CODE_SUCCESS). */
  const ResponseCodeSuccess: string := "success"
  const ReasonCodeSuccess: string := "none"

  /** A processed amount: either a known amount in cents or the raw field a gateway reply carried. */
  datatype Amount = Cents(cents: int) | Reported(raw: Option<string>)

  /** The extended-data bag, narrowed to the keys the plugin uses. */
  datatype ExtendedData = ExtendedData(
    token: Option<string>,                        // express_checkout_token
    checkoutParams: Option<map<string, string>>,  // checkout_params
    returnUrl: Option<string>,                    // return_url
    cancelUrl: Option<string>,                    // cancel_url
    payerId: Option<string>,                      // paypal_payer_id
    authorizationId: Option<string>)              // authorization_id

  datatype Transaction = Transaction(
    requestedAmount: int,
    processedAmount: Amount,
    referenceNumber: Option<string>,
    responseCode: Option<string>,
    reasonCode: Option<string>,
    data: ExtendedData)

  /**
   What the plugin reads of the payment a transaction belongs to: the approved
   amount, the approve transaction's reference number and processed amount, the
   first deposit transaction's reference number, and the instruction's currency.
   */
  datatype Payment = Payment(
    approvedAmount: int,
    approveReference: Option<string>,
    approveProcessed: int,
    firstDepositReference: Option<string>,
    currency: string)

  /** The configured default return and cancel URLs ("" when not configured). */
  datatype Config = Config(returnUrl: string, cancelUrl: string)

  /** The page the buyer is sent to, built by the gateway client from a token. */
  datatype RedirectUrl = AuthenticateToken(token: Option<string>)

  datatype UrlKind = ReturnUrlKind | CancelUrlKind

  /** How one operation ends: normally, or by one of the framework's exceptions. */
  datatype Outcome =
    | Success
    | Pending(reason: Option<string>)
    | ActionRequired(visit: RedirectUrl)
    | Failed(responseCode: Option<string>, reasonCode: Option<string>)
    | MissingUrl(which: UrlKind)

  /** The transaction as it currently stands and the gateway calls issued so far. */
  datatype State = State(txn: Transaction, calls: seq<Call>)

  /** An operation in progress: it continues with a value, or it has stopped with an outcome. */
  datatype Step<+T> = Next(value: T, state: State) | Halt(outcome: Outcome, state: State)
  {
    predicate IsFailure() {
      Halt?
    }

    function PropagateFailure<U>(): Step<U>
      requires Halt?
    {
      Halt(outcome, state)
    }

    function Extract(): (T, State)
      requires Next?
    {
      (value, state)
    }
  }

  /** The result of one public operation. */
  datatype Run = Run(outcome: Outcome, txn: Transaction, calls: seq<Call>)

  /** A normal return is a success; a stop carries its own outcome. */
  function Finish(s: Step<()>): (r: Run)
  {
    match s
    case Next(_, st) => Run(Success, st.txn, st.calls)
    case Halt(o, st) => Run(o, st.txn, st.calls)
  }

  /** A hard failure carries exactly the codes recorded on the transaction. */
  predicate Recorded(o: Outcome, t: Transaction)
  {
    o.Failed? ==> t.responseCode == o.responseCode && t.reasonCode == o.reasonCode
  }

  /**
   The plugin never changes the requested amount nor the extended-data keys the
   caller seeds (checkout options, URL overrides, authorization id).
   */
  predicate Untouched(before: Transaction, after: Transaction)
  {
    && after.requestedAmount == before.requestedAmount
    && after.data.checkoutParams == before.data.checkoutParams
    && after.data.returnUrl == before.data.returnUrl
    && after.data.cancelUrl == before.data.cancelUrl
    && after.data.authorizationId == before.data.authorizationId
  }
}
